=== FILE: README.md ===
# daylio2yearinpixels in Dafny

A Dafny model of `daylio2yearinpixels.py`, which converts a Daylio mood export
(a comma-separated file, one line per logged entry) into the single line of
365 mood digits that Year in Pixels reads.

The program does two things one after the other, and the model follows them:

- **`read_daylio`** (module `Reader`). It skips the header line. Each data line
  is stripped and split on `,` with no quoting, and fields 0 to 6 are read, so
  a line with fewer than seven fields fails. Field 0 (`full_date`) is parsed
  into a date and field 4 (`mood`) goes through the mood table. The result is
  two parallel lists. The file's lines are an input sequence. `strptime` is a
  parameter `parse: string -> Option<Date>`, and `None` stands for its
  ValueError.
- **`write_year_in_pixels`** (module `YearInPixels`). It picks the target year:
  the one given, or the year of the first date when the given one is falsy.
  It starts from 365 `'0'` slots and walks `zip(dates, moods)` in order. Each
  entry of the target year is written into its slot, so the last write wins.
  Finally the slots are joined. The model returns the joined text instead of
  writing it to a file.

Supporting modules:

- `Text` holds `str.strip()`, `str.split(',')` and `','.join`.
- `Calendar` holds `calendar.isleap`, the ordinal day `int(strftime('%j'))`
  and its inverse, all re-implemented from the Gregorian rules.
- `Moods` holds the five-entry conversion table, including its two keys that
  end in a space, and the nested loops that apply it.
- `Outcomes` holds `Option`, `Result`, and the four uncaught exceptions the
  core can raise:
  - StopIteration on an empty file;
  - IndexError on a short line;
  - ValueError on a bad date;
  - IndexError on an empty log with no year given.

Where the code's comments and the code disagree, the model follows the code:

- The 29 February branch (lines 93-95) prints and then falls through, so a
  leap day is **not** skipped. It is written into slot 59
  (`YearInPixels.LeapDayWritten`).
- The leap-year shift tests `> 60` on the already 0-based day (line 103). So
  1 March (0-based 60) is not shifted, 2 March (61) is shifted onto 60, and
  the two share a slot (`YearInPixels.LeapYearCollision`,
  `YearInPixels.SecondMarchOverwritesFirst`). Every later date moves down by
  one, and 31 December still lands in slot 364.
- Slots hold whole mood strings (line 106). An unrecognised label such as
  `"sad"` is copied into its slot as it is (`YearInPixels.Place`,
  `YearInPixels.FillLastWrite`). With single-character moods the output is
  365 characters. When every mood is non-empty, it is 365 characters exactly
  when every slot ends as a single character (`YearInPixels.WriteLength`).
  The non-empty condition is needed: an empty mood (read from a line such as
  `2023-01-01,a,b,c,,f,g`) in one slot and a two-character mood in another
  also give 365 characters.

## Model

| member | source | states |
|---|---|---|
| Text.LeadingSpaces | daylio2yearinpixels.py:34 | the count covers exactly the whitespace run at the start of the line |
| Text.TrailingSpaces | daylio2yearinpixels.py:34 | the count covers exactly the whitespace run at the end of the line |
| Text.Strip | daylio2yearinpixels.py:34 | `line.strip()` neither starts nor ends with whitespace |
| Text.StripIsInfix | daylio2yearinpixels.py:34 | `line.strip()` is an infix of the line with whitespace-only text on both sides |
| Text.StripTrimmed | daylio2yearinpixels.py:34 | stripping a line that has no surrounding whitespace leaves it unchanged |
| Text.StripIdempotent | daylio2yearinpixels.py:34 | stripping twice equals stripping once |
| Text.StripPadded | daylio2yearinpixels.py:31-34 | any whitespace around the content, such as the newline `readlines` keeps, is removed and the content is kept |
| Text.StripNewline | daylio2yearinpixels.py:31-34 | stripping a line read with its trailing newline gives the line's content |
| Text.Split | daylio2yearinpixels.py:34 | `split(',')` gives at least one piece and no piece contains a comma |
| Text.JoinSplit | daylio2yearinpixels.py:34 | joining the pieces of a split with commas gives the line back, so no character is lost |
| Text.SplitJoin | daylio2yearinpixels.py:34 | splitting a comma-join of comma-free pieces gives back exactly those pieces, so the split has no quoting |
| Calendar.IsLeap | daylio2yearinpixels.py:93 | `calendar.isleap`'s rule `y % 4 == 0 and (y % 100 != 0 or y % 400 == 0)`; Dafny's `%` agrees with Python's for these positive divisors, negative years included |
| Calendar.LeapRule | daylio2yearinpixels.py:103 | the leap rule repeats every 400 years, makes 2000 and 2024 leap and 1900 and 2023 common |
| Calendar.DaysBeforeMonthTable | daylio2yearinpixels.py:98 | the month offsets behind `%j` equal the common-year cumulative table, plus one after February in a leap year, and sum to 365 or 366 |
| Calendar.OrdinalDay | daylio2yearinpixels.py:98 | `int(strftime('%j'))` lies in 1..365 (366 in a leap year) and within its month's range of day numbers |
| Calendar.OrdinalSuccessor | daylio2yearinpixels.py:98 | `%j` goes up by one from each day to the next, within a month and from a month's last day to the next month's first |
| Calendar.MonthContaining | daylio2yearinpixels.py:98 | the month it returns, from `m` on, has a day range holding `n` |
| Calendar.DateOfOrdinal | daylio2yearinpixels.py:98 | every ordinal day of a year is the `%j` of some date of that year |
| Calendar.MonthRangesDisjoint | daylio2yearinpixels.py:98 | no ordinal day falls in two months |
| Calendar.OrdinalRoundTrip | daylio2yearinpixels.py:98 | date to ordinal day and back gives the same date |
| Calendar.OrdinalInjective | daylio2yearinpixels.py:98 | distinct dates of one year have distinct ordinal days |
| Moods.KeyOrderIsKeys | daylio2yearinpixels.py:50-55 | the outer loop visits each of the five table keys exactly once |
| Moods.ConvertTable | daylio2yearinpixels.py:50-58 | each digit comes from exactly its literal key (`'amazing '`, `'happy'`, `'average'`, `'sad '`, `'horrible'`) or from itself; every other text, `'sad'` included, is unchanged |
| Moods.ConvertIdempotent | daylio2yearinpixels.py:50-58 | converting twice equals converting once, because no digit is a key |
| Moods.AllPassesIsConvert | daylio2yearinpixels.py:55-58 | the five in-order replacement passes on one mood equal a single table lookup |
| Moods.ConvertMoods | daylio2yearinpixels.py:55-58 | the nested loops keep the list's length and replace each mood by its single lookup |
| Reader.RowOf | daylio2yearinpixels.py:36-42 | reading `line[0]`..`line[6]` fails exactly when there are fewer than 7 fields; otherwise the row holds the first seven in column order |
| Reader.ParseRow | daylio2yearinpixels.py:34-42 | a line fails exactly when its stripped comma split has fewer than 7 fields; otherwise the row is the first seven fields, and later fields are ignored |
| Reader.RowOfFields | daylio2yearinpixels.py:36-42 | a row's seven fields read back as that row |
| Reader.ParseRowOfJoin | daylio2yearinpixels.py:34-42 | a line that is seven or more comma-free fields joined by commas, with any surrounding whitespace, reads back as its first seven fields |
| Reader.RowRoundTrip | daylio2yearinpixels.py:31-42 | a row written as a comma-joined line with a newline reads back as the same row |
| Reader.SplitRows | daylio2yearinpixels.py:33-42 | every data line gives a row, in order, or the result is the first line with fewer than seven fields |
| Reader.ParseDates | daylio2yearinpixels.py:47 | every `full_date` is parsed, in order, or the result is the first one that fails |
| Reader.ReadDaylio | daylio2yearinpixels.py:29-60 | the header is dropped; the two returned lists have equal length; line i+1 gives date i (field 0) and converted mood i (field 4); success exactly when every line has at least 7 fields and every date parses; otherwise the error is the first short line, or else the first bad date; an empty file fails |
| Reader.KnownLabelsGiveDigits | daylio2yearinpixels.py:50-60 | when every label is in the table, every returned mood is one digit 1-5 |
| YearInPixels.Zip | daylio2yearinpixels.py:90 | `zip` pairs dates and moods position by position up to the shorter list |
| YearInPixels.Falsy | daylio2yearinpixels.py:84 | `not year` holds for `None` and `0` only |
| YearInPixels.ZeroYearIsOmitted | daylio2yearinpixels.py:84-85 | a year of `0` gives the same output as an omitted year (the first date's year), and any other year is used as given |
| YearInPixels.TargetYear | daylio2yearinpixels.py:84-85 | a non-falsy year is kept; a falsy year (`None` or 0) becomes the first date's year; this fails only when the year is falsy and there are no dates |
| YearInPixels.SlotIndex | daylio2yearinpixels.py:97-106 | the slot of an in-year date always lies in 0..364, so `yip[dayofyear]` never goes out of range |
| YearInPixels.CommonYearSlots | daylio2yearinpixels.py:97-104 | in a common year the slot is the ordinal day minus one, and two dates share a slot exactly when they are equal |
| YearInPixels.FirstAndLastSlots | daylio2yearinpixels.py:97-104 | 1 January is slot 0 and 31 December is slot 364 in every year |
| YearInPixels.LeapYearSlots | daylio2yearinpixels.py:93-104 | in a leap year, 28 Feb -> 58, 29 Feb -> 59, 1 Mar -> 60, 2 Mar -> 60, 3 Mar -> 61, 31 Dec -> 364 |
| YearInPixels.LeapYearCollision | daylio2yearinpixels.py:97-104 | in a leap year, two distinct dates share a slot exactly when they are 1 and 2 March |
| YearInPixels.SlotDate | daylio2yearinpixels.py:97-104 | every slot 0..364 is the slot of some date of the year |
| YearInPixels.Place | daylio2yearinpixels.py:91-106 | an entry of another year changes nothing; an in-year entry puts its mood in its own slot and changes no other slot |
| YearInPixels.Fill | daylio2yearinpixels.py:88-106 | the slot list always has 365 elements |
| YearInPixels.FillUntouched | daylio2yearinpixels.py:88-106 | a slot that no in-year entry maps to stays `'0'` |
| YearInPixels.FillLastWrite | daylio2yearinpixels.py:90-106 | a slot holds the mood of the last in-year entry, in input order, that maps to it |
| YearInPixels.FillOtherYear | daylio2yearinpixels.py:90-91 | appending an entry of another year leaves every slot unchanged |
| YearInPixels.FillNoMatch | daylio2yearinpixels.py:88-91 | with no entry of the target year every slot is `'0'` |
| YearInPixels.FillFromMoods | daylio2yearinpixels.py:88-106 | each slot ends as `'0'` or as the mood of some entry |
| YearInPixels.Concat | daylio2yearinpixels.py:109 | `''.join(yip)`: when every slot is one character, the joined text has one character per slot |
| YearInPixels.ConcatSingles | daylio2yearinpixels.py:109 | joining one-character slots gives one character per slot, in order |
| YearInPixels.ConcatNonEmpty | daylio2yearinpixels.py:109 | joining non-empty slots gives at least one character per slot, and exactly one per slot only when each slot is a single character |
| YearInPixels.WriteYearInPixels | daylio2yearinpixels.py:84-109 | the writer fails exactly when the year is falsy and the date list is empty |
| YearInPixels.WriteNoMatch | daylio2yearinpixels.py:84-109 | with no entry of the target year the output is 365 `'0'` characters |
| YearInPixels.WriteLength | daylio2yearinpixels.py:88-109 | with single-character moods the output has 365 characters; with non-empty moods it has 365 exactly when every slot ends as a single character |
| YearInPixels.LeapDayWritten | daylio2yearinpixels.py:93-106 | a 29 February entry of a leap target year is written to slot 59; it is not skipped |
| YearInPixels.SecondMarchOverwritesFirst | daylio2yearinpixels.py:97-106 | in a leap year a 2 March entry overwrites the preceding 1 March entry in slot 60 |

## Left out

- File input and output (`open`, `next(f)`, `readlines`, `f.write`). The
  reader takes the file's lines and the writer returns the text it would
  write. The line splitting done by `readlines` is not modelled; the newline
  it leaves on each line is covered by `Text.StripNewline`.
- The `print('Skipping leap day.')` at line 94 has no effect on the data.
- Command-line handling (lines 112-115). The composition of reader and writer
  is the two members used one after the other.
- `datetime.strptime` (line 47) is a foreign library. It is the parameter
  `parse`, and its results are `Calendar.Date` values: valid Gregorian dates in
  years 1 to 9999, the range Python's `datetime` holds.
- The unused columns `date`, `day`, `time`, `activities` and `note` are read
  into `Reader.Row` (so their absence is an error) but are never used.
- `year` as a Python object: it is modelled as `Option<int>`. Falsy means
  `None` or `0`. Other falsy objects, such as `False`, are not modelled.

=== FILE: calendar.dfy ===
/**
 The Gregorian calendar as the converter needs it: `calendar.isleap`, the
 ordinal day of a date (what `int(date.strftime('%j'))` yields), and the date
 that a given ordinal day names.
 */
module Calendar {

  /** A year, month and day, not yet known to name a real date. */
  datatype Ymd = Ymd(year: int, month: int, day: int)

  /** `calendar.isleap`: every fourth year, except centuries not divisible by 400.
      Python's `%` floors and Dafny's is Euclidean; for the positive divisors
      used here both give the same remainder, negative years included. */
  predicate IsLeap(y: int) {
    y % 4 == 0 && (y % 100 != 0 || y % 400 == 0)
  }

  /** The leap rule repeats every 400 years and settles the century cases. */
  lemma LeapRule(y: int)
    ensures IsLeap(y) <==> IsLeap(y + 400)
    ensures IsLeap(2000) && IsLeap(2024) && !IsLeap(1900) && !IsLeap(2023)
  {
  }

  function DaysInMonth(y: int, m: int): (n: int)
    requires 1 <= m <= 12
  {
    if m == 2 then (if IsLeap(y) then 29 else 28)
    else if m == 4 || m == 6 || m == 9 || m == 11 then 30
    else 31
  }

  function DaysInYear(y: int): int {
    if IsLeap(y) then 366 else 365
  }

  /** A date Python's `datetime` can hold: years 1 (MINYEAR) to 9999 (MAXYEAR). */
  predicate IsValid(d: Ymd) {
    && 1 <= d.year <= 9999
    && 1 <= d.month <= 12
    && 1 <= d.day <= DaysInMonth(d.year, d.month)
  }

  type Date = d: Ymd | IsValid(d) witness Ymd(1, 1, 1)

  /** Days of the year before the first of month `m` (`m == 13` gives the whole year). */
  function DaysBeforeMonth(y: int, m: int): int
    requires 1 <= m <= 13
  {
    if m == 1 then 0 else DaysBeforeMonth(y, m - 1) + DaysInMonth(y, m - 1)
  }

  /** The cumulative month lengths of a common year, the usual reference table. */
  const CommonYearStarts: seq<int> := [0, 31, 59, 90, 120, 151, 181, 212, 243, 273, 304, 334, 365]

  /** The month sums agree with the reference table, shifted by one day after
      February in a leap year; in particular they add up to the year's length. */
  lemma DaysBeforeMonthTable(y: int)
    ensures forall m :: 1 <= m <= 13 ==>
      DaysBeforeMonth(y, m) == CommonYearStarts[m - 1] + (if IsLeap(y) && m > 2 then 1 else 0)
    ensures DaysBeforeMonth(y, 13) == DaysInYear(y)
  {
    var leap := if IsLeap(y) then 1 else 0;
    assert DaysBeforeMonth(y, 1) == 0;
    assert DaysBeforeMonth(y, 2) == 31;
    assert DaysBeforeMonth(y, 3) == 59 + leap;
    assert DaysBeforeMonth(y, 4) == 90 + leap;
    assert DaysBeforeMonth(y, 5) == 120 + leap;
    assert DaysBeforeMonth(y, 6) == 151 + leap;
    assert DaysBeforeMonth(y, 7) == 181 + leap;
    assert DaysBeforeMonth(y, 8) == 212 + leap;
    assert DaysBeforeMonth(y, 9) == 243 + leap;
    assert DaysBeforeMonth(y, 10) == 273 + leap;
    assert DaysBeforeMonth(y, 11) == 304 + leap;
    assert DaysBeforeMonth(y, 12) == 334 + leap;
    assert DaysBeforeMonth(y, 13) == 365 + leap;
  }

  /** Later months start later. */
  lemma {:induction false} DaysBeforeMonthMonotone(y: int, a: int, b: int)
    requires 1 <= a <= b <= 13
    ensures DaysBeforeMonth(y, a) + 28 * (b - a) <= DaysBeforeMonth(y, b)
    decreases b - a
  {
    if a < b {
      DaysBeforeMonthMonotone(y, a, b - 1);
    }
  }

  /** The ordinal day of a date, 1 for the first of January; this is the number
      `strftime('%j')` prints (zero-padded to three digits, which `int` drops). */
  function OrdinalDay(d: Date): (n: int)
    ensures 1 <= n <= DaysInYear(d.year)
    ensures DaysBeforeMonth(d.year, d.month) < n <= DaysBeforeMonth(d.year, d.month + 1)
  {
    DaysBeforeMonthTable(d.year);
    DaysBeforeMonthMonotone(d.year, d.month + 1, 13);
    DaysBeforeMonth(d.year, d.month) + d.day
  }

  /** Ordinal days count up one day at a time: the next day of the same month,
      and the first of the next month after a month's last day, each come one
      ordinal day later. */
  lemma OrdinalSuccessor(d: Date)
    ensures d.day < DaysInMonth(d.year, d.month) ==>
      OrdinalDay(Ymd(d.year, d.month, d.day + 1)) == OrdinalDay(d) + 1
    ensures d.month < 12 && d.day == DaysInMonth(d.year, d.month) ==>
      OrdinalDay(Ymd(d.year, d.month + 1, 1)) == OrdinalDay(d) + 1
  {
  }

  /** The month, from `m` on, in which ordinal day `n` falls. */
  function MonthContaining(y: int, n: int, m: int): (r: int)
    requires 1 <= m <= 12
    requires DaysBeforeMonth(y, m) < n <= DaysInYear(y)
    ensures m <= r <= 12
    ensures DaysBeforeMonth(y, r) < n <= DaysBeforeMonth(y, r + 1)
    decreases 12 - m
  {
    DaysBeforeMonthTable(y);
    if n <= DaysBeforeMonth(y, m + 1) then m else MonthContaining(y, n, m + 1)
  }

  /** The date of ordinal day `n` in year `y`: the inverse of `OrdinalDay`. */
  function DateOfOrdinal(y: int, n: int): (d: Date)
    requires 1 <= y <= 9999
    requires 1 <= n <= DaysInYear(y)
    ensures d.year == y
    ensures OrdinalDay(d) == n
  {
    DaysBeforeMonthTable(y);
    var m := MonthContaining(y, n, 1);
    Ymd(y, m, n - DaysBeforeMonth(y, m))
  }

  /** The month ranges of ordinal days do not overlap. */
  lemma MonthRangesDisjoint(y: int, n: int, m1: int, m2: int)
    requires 1 <= m1 <= 12 && 1 <= m2 <= 12
    requires DaysBeforeMonth(y, m1) < n <= DaysBeforeMonth(y, m1 + 1)
    requires DaysBeforeMonth(y, m2) < n <= DaysBeforeMonth(y, m2 + 1)
    ensures m1 == m2
  {
    if m1 < m2 {
      DaysBeforeMonthMonotone(y, m1 + 1, m2);
    } else if m2 < m1 {
      DaysBeforeMonthMonotone(y, m2 + 1, m1);
    }
  }

  /** Going from a date to its ordinal day and back returns the same date. */
  lemma OrdinalRoundTrip(d: Date)
    ensures DateOfOrdinal(d.year, OrdinalDay(d)) == d
  {
    var n := OrdinalDay(d);
    var e := DateOfOrdinal(d.year, n);
    MonthRangesDisjoint(d.year, n, e.month, d.month);
  }

  /** Within one year, distinct dates have distinct ordinal days. */
  lemma OrdinalInjective(d1: Date, d2: Date)
    requires d1.year == d2.year
    requires OrdinalDay(d1) == OrdinalDay(d2)
    ensures d1 == d2
  {
    OrdinalRoundTrip(d1);
    OrdinalRoundTrip(d2);
  }
}

=== FILE: moods.dfy ===
/**
 The mood conversion table of the Daylio reader: five exact labels become the
 digits 1 to 5 (higher is better); every other text is kept as it is.
 */
module Moods {

  /** The table, keys verbatim: two of them end in a space. */
  const Conversion: map<string, string> :=
    map["amazing " := "5", "happy" := "4", "average" := "3", "sad " := "2", "horrible" := "1"]

  /** The table's keys in insertion order, the order the outer loop visits them. */
  const KeyOrder: seq<string> := ["amazing ", "happy", "average", "sad ", "horrible"]

  /** The five digits the table produces. */
  predicate IsMoodDigit(s: string) {
    s == "1" || s == "2" || s == "3" || s == "4" || s == "5"
  }

  /** One lookup: a known label becomes its digit, anything else stays. */
  function Convert(m: string): string {
    if m in Conversion then Conversion[m] else m
  }

  /** The visiting order lists each key once, and only keys. */
  lemma KeyOrderIsKeys()
    ensures |KeyOrder| == |Conversion|
    ensures forall m :: m in Conversion <==> m in KeyOrder
    ensures forall i, j :: 0 <= i < j < |KeyOrder| ==> KeyOrder[i] != KeyOrder[j]
  {
  }

  /** Exactly the five literal labels map to the five digits; any other text,
      including "sad" without its trailing space, comes back unchanged, so a
      digit in the output came either from its label or from that digit itself. */
  lemma ConvertTable(m: string)
    ensures Convert(m) == "5" <==> m == "amazing " || m == "5"
    ensures Convert(m) == "4" <==> m == "happy" || m == "4"
    ensures Convert(m) == "3" <==> m == "average" || m == "3"
    ensures Convert(m) == "2" <==> m == "sad " || m == "2"
    ensures Convert(m) == "1" <==> m == "horrible" || m == "1"
    ensures m in Conversion ==> IsMoodDigit(Convert(m))
    ensures m !in Conversion ==> Convert(m) == m
    ensures Convert("amazing ") == "5" && Convert("happy") == "4" && Convert("average") == "3"
    ensures Convert("sad ") == "2" && Convert("horrible") == "1"
    ensures Convert("sad") == "sad" && Convert("amazing") == "amazing"
  {
  }

  /** No digit the table produces is itself a key, so converting twice is converting once. */
  lemma ConvertIdempotent(m: string)
    ensures Convert(Convert(m)) == Convert(m)
  {
  }

  /** One mood after the outer loop has visited the first `t` keys: each visit
      replaces the value when it equals that key. */
  function AfterPasses(m: string, t: nat): string
    requires t <= |KeyOrder|
  {
    if t == 0 then m
    else
      var x := AfterPasses(m, t - 1);
      if x == KeyOrder[t - 1] then Conversion[KeyOrder[t - 1]] else x
  }

  /** All five passes of the nested loops give the single lookup: a key is
      replaced on its own pass, and the digit it becomes matches no later key. */
  lemma {:induction false} AllPassesIsConvert(m: string)
    ensures AfterPasses(m, |KeyOrder|) == Convert(m)
  {
    assert AfterPasses(m, 0) == m;
    assert AfterPasses(m, 1) == Convert(m) || AfterPasses(m, 1) == m;
    assert AfterPasses(m, 2) == Convert(m) || AfterPasses(m, 2) == m;
    assert AfterPasses(m, 3) == Convert(m) || AfterPasses(m, 3) == m;
    assert AfterPasses(m, 4) == Convert(m) || AfterPasses(m, 4) == m;
    assert AfterPasses(m, 5) == Convert(m);
  }

  /** The nested loops of the reader: for each key in order, rewrite every mood
      equal to it. The result is the single lookup applied to each mood. */
  method ConvertMoods(moods: seq<string>) returns (out: seq<string>)
    ensures |out| == |moods|
    ensures forall c :: 0 <= c < |moods| ==> out[c] == Convert(moods[c])
  {
    out := moods;
    var t := 0;
    while t < |KeyOrder|
      invariant 0 <= t <= |KeyOrder|
      invariant |out| == |moods|
      invariant forall c :: 0 <= c < |moods| ==> out[c] == AfterPasses(moods[c], t)
    {
      var entry := KeyOrder[t];
      var count := 0;
      while count < |out|
        invariant 0 <= count <= |out| == |moods|
        invariant forall c :: 0 <= c < count ==> out[c] == AfterPasses(moods[c], t + 1)
        invariant forall c :: count <= c < |moods| ==> out[c] == AfterPasses(moods[c], t)
      {
        if out[count] == entry {
          out := out[count := Conversion[entry]];
        }
        count := count + 1;
      }
      t := t + 1;
    }
    forall c | 0 <= c < |moods|
      ensures out[c] == Convert(moods[c])
    {
      AllPassesIsConvert(moods[c]);
    }
  }
}

=== FILE: outcomes.dfy ===
/**
 Failure-compatible wrappers and the ways the conversion can stop.

 The program defines no error types of its own: every failure is an uncaught
 Python exception that ends the run. `Error` names the ones the core can raise.
 */
module Outcomes {

  /** Python's `None` or a present value. */
  datatype Option<+T> = None | Some(value: T)

  /** The uncaught exceptions of the core. `ShortRow` and `BadDate` carry the
      0-based index of the data line (counted after the header) that raised them;
      `MissingHeader` and `NoEntries` carry nothing. */
  datatype Error =
    | MissingHeader          // `next(f)` on an empty file raises StopIteration
    | ShortRow(row: nat)     // `line[k]` for k <= 6 on a row with fewer than 7 fields: IndexError
    | BadDate(row: nat)      // `datetime.strptime` rejects the `full_date` text: ValueError
    | NoEntries              // `daylio[0][0]` on an empty date list: IndexError

  datatype Result<+T> = Ok(value: T) | Err(error: Error) {

    predicate IsFailure() {
      Err?
    }

    function PropagateFailure<U>(): Result<U>
      requires Err?
    {
      Err(error)
    }

    function Extract(): T
      requires Ok?
    {
      value
    }
  }
}

=== FILE: reader.dfy ===
/**
 `read_daylio`: the Daylio export, one header line and then one comma-separated
 line per entry with the columns
   full_date, date, day, time, mood, activities, note,
 becomes two parallel lists: the parsed `full_date` of each line and its mood,
 converted through the mood table.
 */
module Reader {
  import opened Outcomes
  import opened Text
  import opened Calendar
  import Moods

  /** One data line, column by column. Only `fullDate` and `mood` are used
      later; the others are read (so they must exist) and then ignored. */
  datatype Row = Row(
    fullDate: string, date: string, day: string, time: string,
    mood: string, activities: string, note: string)

  /** What `read_daylio` returns: the dates and the converted moods, in line order. */
  datatype Log = Log(dates: seq<Date>, moods: seq<string>)

  function RowFields(row: Row): seq<string> {
    [row.fullDate, row.date, row.day, row.time, row.mood, row.activities, row.note]
  }

  /** The fields of a line: `line.strip().split(',')`, no quoting. */
  function Fields(line: string): seq<string> {
    Split(Strip(line))
  }

  /** Reading `line[0]` to `line[6]` of a list of fields. */
  function RowOf(f: seq<string>): (r: Option<Row>)
    ensures r.None? <==> |f| < 7
    ensures r.Some? ==> forall k :: 0 <= k < 7 ==> RowFields(r.value)[k] == f[k]
  {
    if |f| < 7 then None else Some(Row(f[0], f[1], f[2], f[3], f[4], f[5], f[6]))
  }

  /** A data line as a row: it fails when the line has fewer than seven fields,
      and any field after the seventh is ignored. */
  function ParseRow(line: string): (r: Option<Row>)
    ensures r.None? <==> |Fields(line)| < 7
    ensures r.Some? ==> forall k :: 0 <= k < 7 ==> RowFields(r.value)[k] == Fields(line)[k]
  {
    RowOf(Fields(line))
  }

  /** The seven fields, read back, are the row they came from. */
  lemma RowOfFields(row: Row)
    ensures RowOf(RowFields(row)) == Some(row)
  {
  }

  /** A line that is seven or more comma-free fields joined by commas, with any
      surrounding whitespace, reads back as its first seven fields. */
  lemma ParseRowOfJoin(line: string, ps: seq<string>)
    requires |ps| >= 7
    requires forall i :: 0 <= i < |ps| ==> NoComma(ps[i])
    requires Strip(line) == Join(ps)
    ensures ParseRow(line) == RowOf(ps)
    ensures ParseRow(line).Some?
    ensures forall k :: 0 <= k < 7 ==> RowFields(ParseRow(line).value)[k] == ps[k]
  {
    SplitJoin(ps);
  }

  /** The text form of a row: its seven fields joined by commas. */
  function RowLine(row: Row): string {
    Join(RowFields(row))
  }

  /** A row whose fields hold no comma, written out as a line with a trailing
      newline, reads back as the same row. */
  lemma RowRoundTrip(row: Row)
    requires forall i :: 0 <= i < 7 ==> NoComma(RowFields(row)[i])
    requires Trimmed(RowLine(row))
    ensures ParseRow(RowLine(row) + "\n") == Some(row)
  {
    StripNewline(RowLine(row));
    ParseRowOfJoin(RowLine(row) + "\n", RowFields(row));
    RowOfFields(row);
  }

  /** The date of a data line parses. */
  predicate DateParses(line: string, parse: string -> Option<Date>) {
    ParseRow(line).Some? && parse(ParseRow(line).value.fullDate).Some?
  }

  /** Line `i` is the first data line with fewer than seven fields. */
  predicate FirstShortRow(data: seq<string>, i: nat) {
    && i < |data|
    && ParseRow(data[i]).None?
    && forall j :: 0 <= j < i ==> ParseRow(data[j]).Some?
  }

  /** Line `i` is the first data line whose date does not parse. */
  predicate FirstBadDate(data: seq<string>, parse: string -> Option<Date>, i: nat) {
    && i < |data|
    && !DateParses(data[i], parse)
    && forall j :: 0 <= j < i ==> DateParses(data[j], parse)
  }

  predicate AllRowsComplete(data: seq<string>) {
    forall i :: 0 <= i < |data| ==> ParseRow(data[i]).Some?
  }

  predicate AllDatesParse(data: seq<string>, parse: string -> Option<Date>) {
    forall i :: 0 <= i < |data| ==> DateParses(data[i], parse)
  }

  /** `log` holds, for each data line in order, its parsed field 0 and its
      converted field 4. */
  predicate Reads(data: seq<string>, parse: string -> Option<Date>, log: Log) {
    && |log.dates| == |data|
    && |log.moods| == |data|
    && forall i :: 0 <= i < |data| ==>
         && ParseRow(data[i]).Some?
         && parse(ParseRow(data[i]).value.fullDate) == Some(log.dates[i])
         && log.moods[i] == Moods.Convert(ParseRow(data[i]).value.mood)
  }

  /** The first loop of `read_daylio`: split every data line into its columns,
      stopping at the first line that has fewer than seven. */
  method SplitRows(data: seq<string>) returns (r: Result<seq<Row>>)
    ensures r.Ok? <==> AllRowsComplete(data)
    ensures r.Ok? ==> |r.value| == |data| && forall j :: 0 <= j < |data| ==> ParseRow(data[j]) == Some(r.value[j])
    ensures r.Err? ==> r.error.ShortRow? && FirstShortRow(data, r.error.row)
  {
    var rows: seq<Row> := [];
    var i := 0;
    while i < |data|
      invariant 0 <= i <= |data|
      invariant |rows| == i
      invariant forall j :: 0 <= j < i ==> ParseRow(data[j]) == Some(rows[j])
    {
      var row := ParseRow(data[i]);
      if row.None? {
        assert FirstShortRow(data, i);
        return Err(ShortRow(i));
      }
      rows := rows + [row.value];
      i := i + 1;
    }
    assert AllRowsComplete(data);
    return Ok(rows);
  }

  /** The date conversion of `read_daylio`: parse every `full_date`, stopping at
      the first that does not parse. */
  method ParseDates(rows: seq<Row>, parse: string -> Option<Date>) returns (r: Result<seq<Date>>)
    ensures r.Ok? <==> forall j :: 0 <= j < |rows| ==> parse(rows[j].fullDate).Some?
    ensures r.Ok? ==> |r.value| == |rows| && forall j :: 0 <= j < |rows| ==> parse(rows[j].fullDate) == Some(r.value[j])
    ensures r.Err? ==> r.error.BadDate? && r.error.row < |rows| && parse(rows[r.error.row].fullDate).None?
    ensures r.Err? ==> forall j :: 0 <= j < r.error.row ==> parse(rows[j].fullDate).Some?
  {
    var dates: seq<Date> := [];
    var i := 0;
    while i < |rows|
      invariant 0 <= i <= |rows|
      invariant |dates| == i
      invariant forall j :: 0 <= j < i ==> parse(rows[j].fullDate) == Some(dates[j])
    {
      var d := parse(rows[i].fullDate);
      if d.None? {
        return Err(BadDate(i));
      }
      dates := dates + [d.value];
      i := i + 1;
    }
    return Ok(dates);
  }

  /** `read_daylio` on the lines of the file, header first. `parse` stands for
      `datetime.strptime(_, '%Y-%m-%d')`, `None` for the ValueError it raises.
      All lines are split before any date is parsed, so a short line anywhere
      is reported before a bad date anywhere. */
  method ReadDaylio(lines: seq<string>, parse: string -> Option<Date>) returns (r: Result<Log>)
    ensures r == Err(MissingHeader) <==> |lines| == 0
    ensures r.Ok? <==> |lines| > 0 && AllRowsComplete(lines[1..]) && AllDatesParse(lines[1..], parse)
    ensures r.Ok? ==> |r.value.dates| == |r.value.moods| == |lines| - 1
    ensures r.Ok? ==> Reads(lines[1..], parse, r.value)
    ensures r.Err? && r.error.ShortRow? ==> |lines| > 0 && FirstShortRow(lines[1..], r.error.row)
    ensures r.Err? && r.error.BadDate? ==>
      |lines| > 0 && AllRowsComplete(lines[1..]) && FirstBadDate(lines[1..], parse, r.error.row)
    ensures r != Err(NoEntries)
  {
    if |lines| == 0 {
      return Err(MissingHeader);
    }
    var data := lines[1..];
    var rows :- SplitRows(data);
    var dates := ParseDates(rows, parse);
    if dates.Err? {
      assert !DateParses(data[dates.error.row], parse);
      return Err(dates.error);
    }
    var labels := seq(|rows|, j requires 0 <= j < |rows| => rows[j].mood);
    var moods := Moods.ConvertMoods(labels);
    r := Ok(Log(dates.value, moods));
    forall i | 0 <= i < |data|
      ensures ParseRow(data[i]) == Some(rows[i])
      ensures parse(rows[i].fullDate) == Some(dates.value[i])
      ensures moods[i] == Moods.Convert(rows[i].mood)
    {
      assert labels[i] == rows[i].mood;
    }
  }

  /** A mood read from a line whose label is in the table is a single digit. */
  lemma {:induction false} KnownLabelsGiveDigits(data: seq<string>, parse: string -> Option<Date>, log: Log)
    requires Reads(data, parse, log)
    requires forall i :: 0 <= i < |data| ==> ParseRow(data[i]).Some? && ParseRow(data[i]).value.mood in Moods.Conversion
    ensures forall i :: 0 <= i < |log.moods| ==> Moods.IsMoodDigit(log.moods[i]) && |log.moods[i]| == 1
  {
    forall i | 0 <= i < |log.moods|
      ensures Moods.IsMoodDigit(log.moods[i]) && |log.moods[i]| == 1
    {
      Moods.ConvertTable(ParseRow(data[i]).value.mood);
    }
  }
}

=== FILE: text.dfy ===
/**
 The two string operations the reader applies to every data line:
 Python's `str.strip()` (no argument) and `str.split(',')`, together with the
 `','.join` that undoes the split.
 */
module Text {

  /** The characters Python's `str.isspace` accepts, which are exactly those
      `str.strip()` with no argument removes. */
  predicate IsSpace(c: char) {
    || c == ' '
    || ('\t' <= c <= '\r')
    || ('\U{1C}' <= c <= '\U{1F}')
    || c == '\U{85}' || c == '\U{A0}' || c == '\U{1680}'
    || ('\U{2000}' <= c <= '\U{200A}')
    || c == '\U{2028}' || c == '\U{2029}' || c == '\U{202F}' || c == '\U{205F}' || c == '\U{3000}'
  }

  predicate AllSpace(s: string) {
    forall i :: 0 <= i < |s| ==> IsSpace(s[i])
  }

  /** `s` neither starts nor ends with whitespace. */
  predicate Trimmed(s: string) {
    |s| == 0 || (!IsSpace(s[0]) && !IsSpace(s[|s| - 1]))
  }

  /** The length of the whitespace run that starts `s`. */
  function LeadingSpaces(s: string): (n: nat)
    ensures n <= |s|
    ensures forall k :: 0 <= k < n ==> IsSpace(s[k])
    ensures n == |s| || !IsSpace(s[n])
  {
    if |s| > 0 && IsSpace(s[0]) then
      var n := LeadingSpaces(s[1..]);
      assert forall k :: 1 <= k < n + 1 ==> s[k] == s[1..][k - 1];
      n + 1
    else
      0
  }

  /** The length of the whitespace run that ends `s`. */
  function TrailingSpaces(s: string): (n: nat)
    ensures n <= |s|
    ensures forall k :: |s| - n <= k < |s| ==> IsSpace(s[k])
    ensures n == |s| || !IsSpace(s[|s| - n - 1])
  {
    if |s| > 0 && IsSpace(s[|s| - 1]) then
      var n := TrailingSpaces(s[..|s| - 1]);
      assert forall k :: 0 <= k < |s| - 1 ==> s[k] == s[..|s| - 1][k];
      n + 1
    else
      0
  }

  /** Python's `s.strip()`: whitespace removed from both ends, leaving a string
      that neither starts nor ends with whitespace. */
  function Strip(s: string): (r: string)
    ensures Trimmed(r)
    ensures |r| <= |s|
  {
    var i := LeadingSpaces(s);
    if i == |s| then ""
    else
      var j := |s| - TrailingSpaces(s);
      assert !IsSpace(s[i]);
      assert i < j;
      s[i..j]
  }

  /** What `Strip` keeps is an infix of its argument with only whitespace on
      either side of it. */
  lemma StripIsInfix(s: string)
    ensures exists i :: (0 <= i <= |s| - |Strip(s)| && Strip(s) == s[i..i + |Strip(s)|]
      && AllSpace(s[..i]) && AllSpace(s[i + |Strip(s)|..]))
  {
    var i := LeadingSpaces(s);
    var r := Strip(s);
    if i == |s| {
      assert r == s[i..i + |r|];
      assert AllSpace(s[..i]) by {
        assert forall k :: 0 <= k < i ==> s[..i][k] == s[k];
      }
      assert AllSpace(s[i + |r|..]);
    } else {
      var j := |s| - TrailingSpaces(s);
      assert !IsSpace(s[i]);
      assert r == s[i..j];
      assert AllSpace(s[..i]) by {
        assert forall k :: 0 <= k < i ==> s[..i][k] == s[k];
      }
      assert AllSpace(s[j..]) by {
        assert forall k :: 0 <= k < |s| - j ==> s[j..][k] == s[j + k];
      }
    }
  }

  /** Leading whitespace in front of a string that does not start with whitespace
      is counted exactly. */
  lemma {:induction false} LeadingSpacesPadded(pre: string, s: string)
    requires AllSpace(pre)
    requires |s| == 0 || !IsSpace(s[0])
    ensures LeadingSpaces(pre + s) == |pre|
    decreases |pre|
  {
    if |pre| > 0 {
      assert (pre + s)[1..] == pre[1..] + s;
      LeadingSpacesPadded(pre[1..], s);
    } else {
      assert pre + s == s;
    }
  }

  /** Trailing whitespace after a string that does not end with whitespace is
      counted exactly. */
  lemma {:induction false} TrailingSpacesPadded(s: string, post: string)
    requires AllSpace(post)
    requires |s| == 0 || !IsSpace(s[|s| - 1])
    ensures TrailingSpaces(s + post) == |post|
    decreases |post|
  {
    if |post| > 0 {
      assert (s + post)[..|s + post| - 1] == s + post[..|post| - 1];
      TrailingSpacesPadded(s, post[..|post| - 1]);
    } else {
      assert s + post == s;
    }
  }

  /** Stripping a line recovers its content whatever whitespace surrounds it,
      such as the newline `readlines` keeps at the end of each line. */
  lemma StripPadded(pre: string, s: string, post: string)
    requires AllSpace(pre) && AllSpace(post)
    requires Trimmed(s)
    ensures Strip(pre + s + post) == s
  {
    var line := pre + s + post;
    if |s| == 0 {
      assert line == pre + post + "";
      LeadingSpacesPadded(pre + post, "");
    } else {
      assert line == pre + (s + post);
      LeadingSpacesPadded(pre, s + post);
      assert line == (pre + s) + post;
      TrailingSpacesPadded(pre + s, post);
      assert line[|pre|..|line| - |post|] == s;
    }
  }

  /** Stripping a string that has no whitespace at either end changes nothing. */
  lemma StripTrimmed(s: string)
    requires Trimmed(s)
    ensures Strip(s) == s
  {
    assert "" + s + "" == s;
    StripPadded("", s, "");
  }

  /** Stripping twice is stripping once. */
  lemma StripIdempotent(s: string)
    ensures Strip(Strip(s)) == Strip(s)
  {
    StripTrimmed(Strip(s));
  }

  /** In particular, stripping removes the newline `readlines` leaves on a line. */
  lemma StripNewline(s: string)
    requires Trimmed(s)
    ensures Strip(s + "\n") == s
  {
    assert "" + s + "\n" == s + "\n";
    StripPadded("", s, "\n");
  }

  /** `','.join(ps)`. */
  function Join(ps: seq<string>): string
    requires |ps| >= 1
  {
    if |ps| == 1 then ps[0] else ps[0] + [','] + Join(ps[1..])
  }

  predicate NoComma(s: string) {
    ',' !in s
  }

  /** Python's `s.split(',')`: always at least one piece, and no piece holds a comma. */
  function Split(s: string): (r: seq<string>)
    ensures |r| >= 1
    ensures forall i :: 0 <= i < |r| ==> NoComma(r[i])
  {
    if |s| == 0 then
      [""]
    else
      var rest := Split(s[1..]);
      if s[0] == ',' then [""] + rest
      else [[s[0]] + rest[0]] + rest[1..]
  }

  /** Joining the pieces of a split with commas gives the string back. */
  lemma {:induction false} JoinSplit(s: string)
    ensures Join(Split(s)) == s
    decreases |s|
  {
    if |s| > 0 {
      var rest := Split(s[1..]);
      JoinSplit(s[1..]);
      if s[0] == ',' {
        assert ([""] + rest)[1..] == rest;
      } else {
        var r := [[s[0]] + rest[0]] + rest[1..];
        assert r[1..] == rest[1..];
        assert [s[0]] + s[1..] == s;
      }
    }
  }

  /** A piece without commas followed by a comma splits off as the first field. */
  lemma {:induction false} SplitAfterPiece(w: string, t: string)
    requires NoComma(w)
    ensures Split(w + [','] + t) == [w] + Split(t)
    decreases |w|
  {
    if |w| == 0 {
      assert w + [','] + t == [','] + t;
      assert ([','] + t)[1..] == t;
    } else {
      assert (w + [','] + t)[1..] == w[1..] + [','] + t;
      SplitAfterPiece(w[1..], t);
      assert [w[0]] + w[1..] == w;
    }
  }

  /** A string without commas splits into itself alone. */
  lemma {:induction false} SplitNoComma(w: string)
    requires NoComma(w)
    ensures Split(w) == [w]
    decreases |w|
  {
    if |w| > 0 {
      SplitNoComma(w[1..]);
      assert [w[0]] + w[1..] == w;
    }
  }

  /** Splitting undoes joining, as long as no piece holds a comma. */
  lemma {:induction false} SplitJoin(ps: seq<string>)
    requires |ps| >= 1
    requires forall i :: 0 <= i < |ps| ==> NoComma(ps[i])
    ensures Split(Join(ps)) == ps
    decreases |ps|
  {
    if |ps| == 1 {
      SplitNoComma(ps[0]);
    } else {
      SplitJoin(ps[1..]);
      SplitAfterPiece(ps[0], Join(ps[1..]));
      assert [ps[0]] + ps[1..] == ps;
    }
  }
}

=== FILE: yearinpixels.dfy ===
/**
 `write_year_in_pixels`: the dates and moods of a Daylio log are projected onto
 the 365 slots of one year, one slot per day, and the slots are joined into the
 single line Year in Pixels reads. `'0'` marks a day without data.
 */
module YearInPixels {
  import opened Outcomes
  import opened Calendar

  /** Year in Pixels has no slot for a leap day, so every year has 365. */
  const SlotCount: nat := 365

  /** The initial value of every slot: no data. */
  const NoData: string := "0"

  /** One element of `zip(dates, moods)`. */
  datatype Entry = Entry(date: Date, mood: string)

  /** `zip(dates, moods)`: pairs up to the end of the shorter list. */
  function Zip(dates: seq<Date>, moods: seq<string>): (es: seq<Entry>)
    ensures |es| == if |dates| <= |moods| then |dates| else |moods|
    ensures forall i :: 0 <= i < |es| ==> es[i] == Entry(dates[i], moods[i])
  {
    if |dates| == 0 || |moods| == 0 then []
    else [Entry(dates[0], moods[0])] + Zip(dates[1..], moods[1..])
  }

  /** Python's `not year` for an optional integer: `None` or `0`. */
  predicate Falsy(year: Option<int>) {
    year.None? || year.value == 0
  }

  /** The year to extract: the one given, or when that is falsy the year of the
      first date, which fails on an empty log. */
  function TargetYear(year: Option<int>, dates: seq<Date>): (r: Result<int>)
    ensures r.Err? <==> Falsy(year) && |dates| == 0
    ensures r.Err? ==> r.error == NoEntries
    ensures r.Ok? && !Falsy(year) ==> r.value == year.value
    ensures r.Ok? && Falsy(year) ==> r.value == dates[0].year
  {
    if !Falsy(year) then Ok(year.value)
    else if |dates| == 0 then Err(NoEntries)
    else Ok(dates[0].year)
  }

  /** A year of 0 behaves as an omitted one: both fall back to the first
      date's year. Any other year is used as given, whatever the dates are. */
  lemma ZeroYearIsOmitted(dates: seq<Date>, moods: seq<string>)
    ensures WriteYearInPixels(dates, moods, Some(0)) == WriteYearInPixels(dates, moods, None)
    ensures |dates| > 0 ==> TargetYear(Some(0), dates) == Ok(dates[0].year)
    ensures forall y :: y != 0 ==> TargetYear(Some(y), dates) == Ok(y)
  {
  }

  /** The slot of a date of the target year: its 0-based day of the year, one
      less in a leap year when that 0-based day exceeds 60. The shift starts
      one day late, at 2 March, and 29 February keeps a slot of its own. */
  function SlotIndex(d: Date, year: int): (k: int)
    requires d.year == year
    ensures 0 <= k < SlotCount
  {
    var dayOfYear := OrdinalDay(d) - 1;
    if IsLeap(year) && dayOfYear > 60 then dayOfYear - 1 else dayOfYear
  }

  /** In a common year the slot is the 0-based day of the year, so distinct
      dates get distinct slots. */
  lemma CommonYearSlots(d1: Date, d2: Date)
    requires d1.year == d2.year && !IsLeap(d1.year)
    ensures SlotIndex(d1, d1.year) == OrdinalDay(d1) - 1
    ensures SlotIndex(d1, d1.year) == SlotIndex(d2, d2.year) <==> d1 == d2
  {
    if SlotIndex(d1, d1.year) == SlotIndex(d2, d2.year) {
      OrdinalInjective(d1, d2);
    }
  }

  /** The slots of the dates around the leap day, and of the last day, in a leap year. */
  lemma LeapYearSlots(y: int)
    requires 1 <= y <= 9999 && IsLeap(y)
    ensures SlotIndex(Ymd(y, 2, 28), y) == 58
    ensures SlotIndex(Ymd(y, 2, 29), y) == 59
    ensures SlotIndex(Ymd(y, 3, 1), y) == 60
    ensures SlotIndex(Ymd(y, 3, 2), y) == 60
    ensures SlotIndex(Ymd(y, 3, 3), y) == 61
    ensures SlotIndex(Ymd(y, 12, 31), y) == 364
  {
    DaysBeforeMonthTable(y);
  }

  /** In every year 1 January is slot 0 and 31 December is slot 364. */
  lemma FirstAndLastSlots(y: int)
    requires 1 <= y <= 9999
    ensures SlotIndex(Ymd(y, 1, 1), y) == 0
    ensures SlotIndex(Ymd(y, 12, 31), y) == SlotCount - 1
  {
    DaysBeforeMonthTable(y);
  }

  /** In a leap year two distinct dates share a slot exactly when they are
      1 and 2 March; every other pair of dates stays apart. */
  lemma LeapYearCollision(d1: Date, d2: Date)
    requires d1.year == d2.year && IsLeap(d1.year)
    requires d1 != d2
    ensures SlotIndex(d1, d1.year) == SlotIndex(d2, d2.year) <==>
      ({d1, d2} == {Ymd(d1.year, 3, 1), Ymd(d1.year, 3, 2)})
  {
    var y := d1.year;
    LeapYearSlots(y);
    var o1, o2 := OrdinalDay(d1), OrdinalDay(d2);
    if o1 == o2 {
      OrdinalInjective(d1, d2);
    }
    if SlotIndex(d1, y) == SlotIndex(d2, y) {
      DaysBeforeMonthTable(y);
      var mar1: Date := Ymd(y, 3, 1);
      var mar2: Date := Ymd(y, 3, 2);
      assert OrdinalDay(mar1) == 61 && OrdinalDay(mar2) == 62;
      if o1 < o2 {
        assert o1 == 61 && o2 == 62;
        OrdinalInjective(d1, mar1);
        OrdinalInjective(d2, mar2);
      } else {
        assert o2 == 61 && o1 == 62;
        OrdinalInjective(d2, mar1);
        OrdinalInjective(d1, mar2);
      }
    }
  }

  /** A date of year `y` that lands in slot `k`: every slot can be written. */
  function SlotDate(y: int, k: int): (d: Date)
    requires 1 <= y <= 9999
    requires 0 <= k < SlotCount
    ensures d.year == y
    ensures SlotIndex(d, y) == k
  {
    if IsLeap(y) && k > 60 then DateOfOrdinal(y, k + 2) else DateOfOrdinal(y, k + 1)
  }

  /** `yip[dayofyear] = felt` for an entry of the target year; other entries
      leave the slots as they are. No slot but the entry's own changes. */
  function Place(yip: seq<string>, e: Entry, year: int): (r: seq<string>)
    requires |yip| == SlotCount
    ensures |r| == SlotCount
    ensures e.date.year != year ==> r == yip
    ensures e.date.year == year ==> r[SlotIndex(e.date, year)] == e.mood
    ensures e.date.year == year ==>
      forall k :: 0 <= k < SlotCount && k != SlotIndex(e.date, year) ==> r[k] == yip[k]
  {
    if e.date.year == year then yip[SlotIndex(e.date, year) := e.mood] else yip
  }

  /** Entry `e` writes slot `k` of `year`. */
  predicate Hits(e: Entry, year: int, k: int) {
    e.date.year == year && SlotIndex(e.date, year) == k
  }

  /** The slots after the loop of `write_year_in_pixels` has visited `es` in order,
      starting from 365 slots of `'0'`. */
  function Fill(es: seq<Entry>, year: int): (yip: seq<string>)
    ensures |yip| == SlotCount
  {
    if |es| == 0 then seq(SlotCount, _ => NoData)
    else Place(Fill(es[..|es| - 1], year), es[|es| - 1], year)
  }

  /** A slot no entry hits keeps `'0'`. */
  lemma {:induction false} FillUntouched(es: seq<Entry>, year: int, k: int)
    requires 0 <= k < SlotCount
    requires forall j :: 0 <= j < |es| ==> !Hits(es[j], year, k)
    ensures Fill(es, year)[k] == NoData
  {
    if |es| > 0 {
      FillUntouched(es[..|es| - 1], year, k);
    }
  }

  /** Last write wins: a slot holds the mood of the last entry that hits it. */
  lemma {:induction false} FillLastWrite(es: seq<Entry>, year: int, k: int, j: int)
    requires 0 <= j < |es|
    requires Hits(es[j], year, k)
    requires forall i :: j < i < |es| ==> !Hits(es[i], year, k)
    ensures Fill(es, year)[k] == es[j].mood
  {
    if j < |es| - 1 {
      FillLastWrite(es[..|es| - 1], year, k, j);
    }
  }

  /** Entries of other years change nothing. */
  lemma FillOtherYear(es: seq<Entry>, e: Entry, year: int)
    requires e.date.year != year
    ensures Fill(es + [e], year) == Fill(es, year)
  {
    assert (es + [e])[..|es|] == es;
  }

  /** When no entry belongs to the target year every slot is `'0'`. */
  lemma FillNoMatch(es: seq<Entry>, year: int)
    requires forall j :: 0 <= j < |es| ==> es[j].date.year != year
    ensures Fill(es, year) == seq(SlotCount, _ => NoData)
  {
    forall k | 0 <= k < SlotCount
      ensures Fill(es, year)[k] == NoData
    {
      FillUntouched(es, year, k);
    }
  }

  /** Every slot ends as `'0'` or as the mood of some entry. */
  lemma {:induction false} FillFromMoods(es: seq<Entry>, year: int, k: int)
    requires 0 <= k < SlotCount
    ensures Fill(es, year)[k] == NoData || exists j :: 0 <= j < |es| && Fill(es, year)[k] == es[j].mood
  {
    if |es| > 0 {
      var init := es[..|es| - 1];
      FillFromMoods(init, year, k);
      if Fill(es, year)[k] != Fill(init, year)[k] {
        assert Fill(es, year)[k] == es[|es| - 1].mood;
      } else if Fill(init, year)[k] != NoData {
        var j :| 0 <= j < |init| && Fill(init, year)[k] == init[j].mood;
        assert es[j] == init[j];
      }
    }
  }

  /** `''.join(yip)`: the slots one after the other, so one-character slots
      give one character each. */
  function Concat(slots: seq<string>): (r: string)
    ensures (forall k :: 0 <= k < |slots| ==> |slots[k]| == 1) ==> |r| == |slots|
  {
    if |slots| == 0 then "" else slots[0] + Concat(slots[1..])
  }

  /** One-character slots join to one character per slot, in slot order. */
  lemma {:induction false} ConcatSingles(slots: seq<string>)
    requires forall k :: 0 <= k < |slots| ==> |slots[k]| == 1
    ensures |Concat(slots)| == |slots|
    ensures forall k :: 0 <= k < |slots| ==> Concat(slots)[k] == slots[k][0]
  {
    if |slots| > 0 {
      ConcatSingles(slots[1..]);
    }
  }

  /** Non-empty slots join to at least one character each, and to exactly one
      each only when every slot is a single character. */
  lemma {:induction false} ConcatNonEmpty(slots: seq<string>)
    requires forall k :: 0 <= k < |slots| ==> |slots[k]| >= 1
    ensures |Concat(slots)| >= |slots|
    ensures |Concat(slots)| == |slots| ==> forall k :: 0 <= k < |slots| ==> |slots[k]| == 1
  {
    if |slots| > 0 {
      ConcatNonEmpty(slots[1..]);
      if |Concat(slots)| == |slots| {
        forall k | 0 <= k < |slots|
          ensures |slots[k]| == 1
        {
          if k > 0 {
            assert slots[1..][k - 1] == slots[k];
          }
        }
      }
    }
  }

  /** `write_year_in_pixels` without the file: the text it writes. */
  function WriteYearInPixels(dates: seq<Date>, moods: seq<string>, year: Option<int>): (r: Result<string>)
    ensures r.Err? <==> Falsy(year) && |dates| == 0
    ensures r.Err? ==> r.error == NoEntries
  {
    var target :- TargetYear(year, dates);
    Ok(Concat(Fill(Zip(dates, moods), target)))
  }

  /** With no entry of the target year, the output is 365 `'0'` characters. */
  lemma WriteNoMatch(dates: seq<Date>, moods: seq<string>, year: Option<int>)
    requires TargetYear(year, dates).Ok?
    requires forall i :: 0 <= i < |dates| ==> dates[i].year != TargetYear(year, dates).value
    ensures WriteYearInPixels(dates, moods, year) == Ok(seq(SlotCount, _ => '0'))
  {
    var target := TargetYear(year, dates).value;
    FillNoMatch(Zip(dates, moods), target);
    var slots := Fill(Zip(dates, moods), target);
    ConcatSingles(slots);
    assert Concat(slots) == seq(SlotCount, _ => '0');
  }

  /** When every mood is a single character the output is exactly 365 characters,
      and when every mood is non-empty it is 365 characters only if every slot
      ends as a single character. */
  lemma WriteLength(dates: seq<Date>, moods: seq<string>, year: Option<int>)
    requires TargetYear(year, dates).Ok?
    ensures
      var slots := Fill(Zip(dates, moods), TargetYear(year, dates).value);
      && WriteYearInPixels(dates, moods, year) == Ok(Concat(slots))
      && ((forall i :: 0 <= i < |moods| ==> |moods[i]| == 1) ==> |Concat(slots)| == SlotCount)
      && ((forall i :: 0 <= i < |moods| ==> |moods[i]| >= 1) ==>
            (|Concat(slots)| == SlotCount <==> forall k :: 0 <= k < SlotCount ==> |slots[k]| == 1))
  {
    var es := Zip(dates, moods);
    var slots := Fill(es, TargetYear(year, dates).value);
    forall k | 0 <= k < SlotCount
      ensures slots[k] == NoData || exists i :: 0 <= i < |moods| && slots[k] == moods[i]
    {
      FillFromMoods(es, TargetYear(year, dates).value, k);
    }
    if forall i :: 0 <= i < |moods| ==> |moods[i]| >= 1 {
      ConcatNonEmpty(slots);
      if forall k :: 0 <= k < SlotCount ==> |slots[k]| == 1 {
        ConcatSingles(slots);
      }
    }
  }

  /** As written, the leap day is not skipped: a 29 February entry appended last
      to a leap target year lands in slot 59 (only 29 February maps there). */
  lemma LeapDayWritten(es: seq<Entry>, y: int, mood: string)
    requires 1 <= y <= 9999 && IsLeap(y)
    ensures Fill(es + [Entry(Ymd(y, 2, 29), mood)], y)[59] == mood
  {
    LeapYearSlots(y);
    FillLastWrite(es + [Entry(Ymd(y, 2, 29), mood)], y, 59, |es|);
  }

  /** As written, an entry for 2 March overwrites the 1 March entry that came
      before it in a leap year: both write slot 60. */
  lemma SecondMarchOverwritesFirst(es: seq<Entry>, y: int, m1: string, m2: string)
    requires 1 <= y <= 9999 && IsLeap(y)
    ensures Fill(es + [Entry(Ymd(y, 3, 1), m1), Entry(Ymd(y, 3, 2), m2)], y)[60] == m2
  {
    LeapYearSlots(y);
    var all := es + [Entry(Ymd(y, 3, 1), m1), Entry(Ymd(y, 3, 2), m2)];
    FillLastWrite(all, y, 60, |es| + 1);
  }
}
